=== FILE: README.md ===
# Neobis Threads: accounts, likes, follows and one-time passwords

A Dafny model of the self-contained logic of the Neobis Threads social
network backend (a Django application):

- **Registration** (`Registration`): the cleaning of the declared fields of
  `CustomUserSerializer` in their order, the email uniqueness validator, the
  ordered password rules of `validate_password`, the password/confirmation
  check of `validate`, and the columns `create` actually persists.
- **Accounts** (`Accounts`): `UserManager.create_user` / `create_superuser`,
  the defaults of `CustomUser`, and `is_profile_private`.
- **Login** (`Login`): the access-token lifetime chosen by `UserLoginView.post`.
- **One-time passwords** (`Otp`): the shape of `OTP.generate_otp`, the strict
  five-minute `OTP.is_expired`, and the OTP table transitions of
  `ForgotPasswordView.post` and `VerifyOTPView.post`.
- **Follow graph** (`Follow`): `UserContactViewSet.create` with its self-follow
  guard, `get_or_create` follow and delete-all unfollow.
- **Thread likes** (`Likes`, `Threads`): the like toggle and count of
  `ThreadLikeView.update`, author assignment in `ThreadCreateView`, the
  `liked_by_user` field, and the liked-users listing of `LikedUsersListMixin`.

Database tables are sequences of rows (`Tables`), so a table may hold a row
more than once unless a unique constraint forbids it. The like table's
`unique_together = (user, thread)` is the predicate `Tables.Unique`. With it
in force, the row count `likes.count()` is the number of distinct likers
(`Likes.CountIsCardinality`). Without it the two differ
(`Likes.DuplicatesBreakTheCount`).

The `FollowingSystem` model is imported by user/views.py but not defined in
the repository's user/models.py. The model treats it as a table of
(follower, followed) rows with no unique constraint. For that reason an
unfollow deletes every matching row. A follow that meets several matching rows
makes `get_or_create` raise. The view's bare `except` turns that into
`{'status': 'error'}` (`Follow.ContactError`).

`ForgotPasswordSerializer` and `OTPVerificationSerializer` are imported by
user/views.py but are not defined in user/serializers.py, and
`UserContactSerializer` is neither imported nor defined. Their verdict enters
as an `Option` parameter: `None` means the data did not validate. Randomness
(`random.choice`) enters as the list of drawn indices. The clock enters as
integer timestamps in microseconds. The database's fresh key enters as an id
parameter. The verdict of Django's `EmailValidator` on a registration email
enters as a predicate parameter, `isEmail`.

Serializer fields that the code relies on are cleaned the way Django REST
framework cleans a `CharField` (`Fields.CleanChar`): surrounding whitespace is
stripped, blanks are refused where the field does not allow them, then the
length bound and the ban on NUL characters apply. This covers the
registration fields `email` (at most 254 characters, Django's `EmailField`
default), `name` (at most 100), `password` (at most 128, from
`AbstractBaseUser`) and `confirm_password`, and a thread's `content`.

Each request is modelled as one step that runs alone; see "## Left out".

Three facts about the code shape the model:
- A follow row is created at once, whatever the target's `is_private` flag
  is; a follow has no pending or approved state.
- The like toggle answers with the serialized thread: `id`, `content`,
  `thread_picture` and `liked_by_user`. `likes_count` is set on the instance
  only and is not among the serialized fields.
- The thread views list threads without regard to their author's privacy or
  to follow relations.

## Model

| member | source | states |
|---|---|---|
| Accounts.NewUser | user/models.py:30-39 | a new account keeps the given email, name, username and password; it is public, active, not staff and not superuser |
| Accounts.Save | user/models.py:31-33 | saving a new account fails with a duplicate error exactly when its email or username is already held by a stored account |
| Accounts.SaveKeepsUnique | user/models.py:31-33 | a successful save keeps the email and username columns unique |
| Accounts.CreateUser | user/models.py:12-20 | fails with `EmailNotSet` exactly when the email is missing or empty, and with a duplicate error exactly when the email or the empty username is taken; otherwise an ordinary active public account with the given email and name, the empty username, and the password (or an unusable one when none is given) |
| Accounts.SecondAccountFails | user/models.py:12-20 | once any account made by `create_user` is stored, every later `create_user` fails, whatever its email |
| Accounts.SecondAccountFailsFromEmpty | user/models.py:12-33 | from an empty directory, a first `create_user` succeeds and a second with another email fails with a duplicate error |
| Accounts.CreateUserNamed | user/models.py:12-33 | with the username supplied, creation fails exactly on a missing email or a taken email or username |
| Accounts.NamedAccountsCoexist | user/models.py:31-33 | with distinct usernames, two accounts with distinct emails are both created |
| Accounts.CreateSuperuser | user/models.py:22-27 | fails exactly when `create_user` would (so `EmailNotSet` exactly on a missing email); otherwise the account has both `is_staff` and `is_superuser` set |
| Accounts.SuperuserOnlyAddsFlags | user/models.py:22-27 | a superuser equals the ordinary account built from the same arguments, except for the two staff flags |
| Accounts.IsProfilePrivate | user/models.py:42-43 | true exactly when the account's `is_private` flag is set |
| Accounts.NewAccountsArePublic | user/models.py:37-43 | every account `create_user` or `create_superuser` makes has a profile that is not private |
| Registration.ValidatePassword | user/serializers.py:15-29 | accepts exactly when no rule is broken, and then returns the password unchanged; a rejection names the first broken rule in the order length, digit, letter, uppercase |
| Registration.AcceptsIff | user/serializers.py:15-29 | the chain accepts exactly the passwords of at least 8 characters that contain a digit and an uppercase letter; the letter rule never rejects an otherwise acceptable password |
| Registration.RejectionReasons | user/serializers.py:16-27 | a short password always gets the length error; a long one without a digit gets the digit error; no letter, or no uppercase letter, always rejects |
| Registration.MessagesIdentifyRule | user/serializers.py:18-27 | each rule raises its own message: equal messages mean the same rule |
| Registration.Validate | user/serializers.py:31-38 | rejects exactly when password and confirmation differ (two absent fields agree); otherwise returns the data unchanged |
| Registration.ConstructorArgs | user/serializers.py:40-44 | the account constructor receives every validated field except `password` and `confirm_password`, with unchanged values |
| Registration.Create | user/serializers.py:40-47 | fails exactly when the email or the empty username is taken; otherwise the account stores the validated password through `set_password`, the validated email and name, the empty username and the default flags |
| Registration.CleanField | user/serializers.py:7-12 | a required serializer field is accepted exactly when present and clean, and its value is then the stripped input; otherwise the error names that field, and it is `Required` exactly when the field is absent |
| Registration.Finish | user/serializers.py:31-47 | once every field is accepted, the mismatch error comes exactly when the cleaned passwords differ; success needs them equal and the email and empty username free, and stores the password, email and name given |
| Registration.RegisterPassword | user/serializers.py:15-38 | the weak-password error comes exactly when the cleaned password breaks a rule, and names the first broken rule of the cleaned value with that rule's message; every later outcome is decided by `Finish` on the cleaned values |
| Registration.Register | user/views.py:34-39 | success needs every field (email, name, password, confirmation) present and clean, the email well-formed (`isEmail`) and not taken, the stripped password passing the rules and equal to the stripped confirmation, and then stores the stripped password, email and name; `NotAnEmail` comes exactly when the cleaned email is not well-formed, and `EmailInUse` exactly when it is well-formed but taken; the weak-password error comes exactly when email and name are accepted and the cleaned password breaks a rule, and it names the first broken rule with its message; the mismatch error comes exactly when every field is accepted but the passwords differ; a save conflict means the empty username is taken |
| Registration.PaddedPasswordIsTooShort | user/serializers.py:15-18 | with email and name accepted, a password that strips to between one and seven characters is refused with the length error and its message, whatever the confirmation and however long the unstripped input |
| Registration.SevenAndASpace | user/serializers.py:8 | "Abcdef1 " strips to the seven characters "Abcdef1", so it is such a password |
| Registration.PaddedConfirmationMatches | user/serializers.py:31-38 | a complete request with a clean, well-formed, free email, a clean name and an acceptable password registers even when the confirmation is that password with a trailing space, while the empty username is free |
| Registration.OverlongPasswordIsRefused | user/serializers.py:7-13 | with email and name accepted, a password longer than 128 characters once stripped is refused by the 128-character bound before the rules run, whatever it contains |
| Registration.StrongButOverlong | user/serializers.py:15-29 | a 129-character password that the rules accept and that stripping leaves unchanged exists, so the bound refuses passwords the rules would pass |
| Registration.RegisterSucceedsIff | user/views.py:34-39 | registration succeeds exactly when every field is accepted (a clean, well-formed email nobody holds, a clean name, a clean password that passes the rules, a clean confirmation), the passwords agree after stripping, and the empty username is free |
| Registration.RegisteredPasswordIsStrong | user/serializers.py:15-47 | every registered account's password has at least 8 and at most 128 characters, a digit and an uppercase letter |
| Fields.CleanChar | user/serializers.py:8 | a cleaned value is the stripped input; it is refused as blank exactly when blanks are not allowed and it strips to nothing, and accepted exactly when it also fits the length bound and has no NUL |
| Fields.StripSlice | user/serializers.py:8 | stripping keeps a contiguous slice, cuts only whitespace on either side, and leaves no whitespace at either end |
| Fields.StripEmptyIff | user/serializers.py:8 | stripping leaves nothing exactly when the value is all whitespace |
| Login.AccessLifetime | user/views.py:59-64 | the lifetime the view requests is seven days exactly when "remember me" is set, otherwise the library default |
| Login.RememberMeIsLost | user/views.py:57-68 | as written, the access token in the response has the default lifetime even when "remember me" is set, unlike the requested seven days |
| Login.IssuedIntended | user/views.py:57-68 | the intended access token belongs to the account and lasts seven days exactly when "remember me" is set |
| Login.SocialAccountIrrelevant | user/views.py:59-64 | a linked social account never changes the chosen lifetime |
| Login.LoginAsWritten | user/views.py:51-68 | as written, login succeeds exactly for an authenticated, active account, and the access token it returns belongs to that account and always has the default lifetime |
| Login.Login | user/views.py:51-68 | the corrected view: login succeeds exactly for an authenticated, active account, and returns the intended token, which belongs to it and lasts seven days exactly when "remember me" is set (as written the lifetime is always the default: `Login.LoginAsWritten`) |
| Login.LoginCorrectsRememberMe | user/views.py:51-68 | the corrected and the as-written login accept the same requests and return the same token exactly when "remember me" is not set |
| Otp.GenerateOtp | user/models.py:67-70 | a generated code is four decimal digits, which fits the four-character column |
| Otp.EveryCodeReachable | user/models.py:67-70 | every four-digit string can be generated |
| Otp.IsExpired | user/models.py:72-75 | expired exactly when more than five minutes have passed since creation |
| Otp.ExpiryThreshold | user/models.py:72-75 | at exactly five minutes a code is still valid, one microsecond later it is expired, and an expired code stays expired |
| Otp.DeleteFor | user/views.py:103 | removes every OTP of the user and leaves every other user's OTPs as they were |
| Otp.ForgotPassword | user/views.py:93-115 | invalid data or an unknown email leaves the OTP table unchanged (400 / 404); otherwise the user has exactly one OTP, the newly generated one, which is mailed, and other users' OTPs are untouched |
| Otp.VerifyOtp | user/views.py:121-128 | a refused verification changes nothing; an accepted one removes all of that user's OTPs and nothing else |
| Otp.CodesStayInColumn | user/models.py:64 | neither view ever stores a code longer than four characters |
| Otp.ForgotThenVerifyClears | user/views.py:102-126 | requesting a code and then verifying leaves the user with no OTP |
| Follow.GetOrCreate | user/views.py:170 | with no matching row one is created and with one nothing changes; with several it fails; every other row keeps its multiplicity |
| Follow.Contact | user/views.py:160-183 | invalid data gives 400; a missing target user gives a server error; a self-follow gives "no need to follow yourself"; only a successful answer listing the requester's relations can change the graph |
| Follow.SelfFollowIsRefused | user/views.py:167-181 | following or unfollowing yourself leaves the graph unchanged and answers "no need to follow yourself" |
| Follow.FollowEffect | user/views.py:169-170 | after a follow there is exactly one follower-to-followed row (or an error if several already existed); all other rows are unchanged |
| Follow.FollowIdempotent | user/views.py:170 | following twice is the same as following once |
| Follow.UnfollowEffect | user/views.py:172-173 | unfollow removes every follower-to-followed row, is a no-op when none exists, and leaves all other rows unchanged |
| Follow.OtherActionsChangeNothing | user/views.py:169-176 | an action other than "follow" or "unfollow" leaves the graph unchanged |
| Follow.ContactKeepsUnique | user/views.py:169-173 | a graph without duplicate rows never gains one |
| Likes.RowCount | thread/views.py:37 | the like count is zero exactly when no one likes the object |
| Likes.CountIsCardinality | thread/migrations/0002_initial.py:46-49 | under the (user, thread) unique constraint, the row count equals the number of distinct likers |
| Likes.DuplicatesBreakTheCount | thread/migrations/0002_initial.py:46-49 | without the constraint, two identical rows count 2 but name a single liker |
| Likes.Toggle | thread/views.py:32-35 | removes the user from the object's likers if present, adds them otherwise; other objects' likers are unchanged; uniqueness is preserved |
| Likes.ToggleCountStep | thread/views.py:32-37 | under uniqueness each toggle changes the like count by exactly one: down on unlike, up on like |
| Likes.ToggleTwice | thread/views.py:32-35 | toggling twice restores the like table up to row order |
| Likes.ToggleTwiceLikers | thread/views.py:32-37 | toggling twice restores every object's likers and the like count |
| Likes.LikedUsers | thread/mixins.py:13-20 | empty for a missing object; otherwise every returned account likes the object, and every existing account that likes it is returned |
| Likes.LikedUsersAreLikers | thread/mixins.py:16-17 | with foreign keys in force, the listing for an existing object is exactly its set of likers |
| Threads.CreateThread | thread/views.py:19-20 | a request without an existing active account fails; content with a NUL fails; otherwise the new thread's author is the requester whatever the payload claims, its content is the stripped content (empty when absent), and nothing else in the database changes |
| Threads.CleanContent | thread/models.py:7 | absent content becomes the empty default; given content is stripped and accepted exactly when it has no NUL |
| Threads.CreateThreadKeepsValid | thread/views.py:19-20 | creation keeps the database consistent, and the new thread has no likes |
| Threads.LikedByUser | thread/serializers.py:13-15 | true exactly when a like row exists for that user and thread |
| Threads.LikeThread | thread/views.py:28-39 | a request without an existing active account fails, a missing thread gives 404, and every other request succeeds; a success flips only the requester's like on that thread; `likes_count` is the new row count; the response's `liked_by_user` is true exactly when the toggle added the like |
| Threads.LikeThreadKeepsValid | thread/views.py:32-37 | a toggle keeps the database consistent; the reported count equals the number of likers and moves by exactly one |
| Threads.LikeTwiceRestores | thread/views.py:32-37 | liking twice restores the like table (up to row order), every thread's likers and the count |
| Threads.LikedByUserAfterToggle | thread/serializers.py:13-15 | after a toggle, `liked_by_user` for the actor is flipped and matches the response; for any other account it is unchanged on every thread |
| Threads.ThreadLikedUsers | thread/mixins.py:13-20 | the liked-users listing of a thread is empty when it is missing; otherwise it holds exactly the existing accounts whose `liked_by_user` is true |
| Threads.LikedUsersMatchLikedByUser | thread/mixins.py:17 | on a consistent database, an account is listed exactly when its `liked_by_user` is true |

Reading (`LikedByUser`, `ThreadLikedUsers`, `IsProfilePrivate`) is a pure
function in the model, so it cannot change any like or account.

## Findings

| source | as written | input that shows it | evidently intended | confidence | as-written member | corrected member |
|---|---|---|---|---|---|---|
| user/models.py:33 | `username` is unique with no default, and neither `create_user` nor `CustomUserSerializer.create` sets it, so every account is saved with the empty username | `create_user("a@x.io", "A")` then `create_user("b@x.io", "B")`: the second `save()` violates the unique username | each account is stored under its own username, so a fresh email can always sign up | not executed; high | Accounts.SecondAccountFailsFromEmpty | Accounts.CreateUserNamed |
| user/views.py:57-68 | `set_exp` is called on `refresh.access_token`, a property that builds a new access token on each read; the response then reads it again | login with `remember_me` true: the returned access token has the default lifetime | the returned access token lasts seven days when `remember_me` is set | not executed; medium (rests on the token library's `access_token` property) | Login.LoginAsWritten | Login.Login |

## Left out

- Each request is modelled as one atomic step with no other request interleaved. The views run check-then-act sequences without a transaction or lock. These are the delete-then-create of user/views.py:103-104, `get_or_create` at user/views.py:170, and the membership test before `add` in thread/views.py:32-35.
- Otp.ForgotPassword: "exactly one OTP afterwards" holds only when forgot-password requests for the same account run one at a time. Two concurrent requests can leave two rows.
- Follow.ContactKeepsUnique: holds only when follow requests run one at a time. Two concurrent follows of the same pair can both insert, and from then on every follow of that pair answers `{'status': 'error'}`.
- Threads.LikeThread: a concurrent duplicate like meets the (user, thread) unique constraint and fails in the database. This is not modelled.
- Registration.Register: the email format check of Django's `EmailValidator` (a regular expression over the local part and the domain) is the parameter `isEmail`, not a definition. The uniqueness validator compares the exact cleaned string. DRF reports the errors of every failing field together; the model reports only the first, in the field order `email`, `name`, `password`, `confirm_password`. The read-only `id` and undeclared keys of the request are ignored, as DRF ignores them.
- Fields.CleanChar: reports only the first failing validator where DRF lists all of them. JSON `null` and non-string values are not modelled. Non-ASCII whitespace (for example U+00A0), which Python's `strip()` also removes, is kept.
- Accounts.CreateUser: `normalize_email` is taken as the identity, and `set_password` keeps the raw password in place of its hash. Both are library calls. Email uniqueness is compared on the exact string.
- Registration.ValidatePassword, Registration.AcceptsIff: the character classes for the password rules are exact for ASCII only. Non-ASCII characters belong to no class, whereas Python's Unicode `isdigit`/`isalpha`/`isupper` accept some of them.
- Password reset (`ResetPasswordView`), logout and token blacklisting, JWT signing and `authenticate` are token and authentication library calls. Only the lifetime of the access token is modelled.
- `send_mail` is I/O. The model records only the address and code of the mail in the response value.
- The randomness of `generate_otp` becomes a parameter (the drawn indices).
- `UserContactSerializer`, `UserFollowingSerializer` and `LogoutSerializer` are used in user/views.py without being imported, and `FollowingSystem` is imported from user/models.py, which does not define it. The model gives `UserContactViewSet.create` the behaviour its body describes. The serializers' verdicts are parameters, and the follow listing is an abstract `Relations(user)` answer.
- `UserContactViewSet.create` has its permission class commented out. The model takes the requester as an existing account id and does not model an anonymous requester.
- `UserContactViewSet.retrieve`, the profile views and `BaseUserProfileViewMixin` are left out. They are plain lookups, and the mixin's self-assignment does nothing.
- Thread content length: the migration declares `max_length=200`, but the model class in thread/models.py does not. The model follows the model class.
- Thread listing order, media fields and upload paths are presentation and storage concerns.
- Cascading deletes (account to threads, likes and OTPs) are left out: none of the modelled views deletes an account or a thread.
- The WebSocket consumer, routing and URL configuration are transport with no logic. thread/urls.py also imports views that thread/views.py does not define.
- Feed visibility, follow approval and pending requests, comments, comment likes, quotes, reposts and mention extraction appear nowhere in the views, serializers or models of the user and thread apps.

=== FILE: accounts.dfy ===
/** The account directory: `CustomUser` and its manager (user/models.py). */
module Accounts {
  import opened Results

  type UserId = nat

  /** What `set_password` leaves on the account.  Hashing is outside the
      model: a raw password stands for its hash, and `set_password(None)`
      marks the password unusable. */
  datatype Credential = Unusable | PasswordOf(raw: string)

  datatype User = User(
    id: UserId,
    email: string,
    name: string,
    username: string,
    bio: Option<string>,
    link: Option<string>,
    isPrivate: bool,
    isActive: bool,
    isStaff: bool,
    isSuperuser: bool,
    credential: Credential)

  /** `EmailNotSet` is the manager's `ValueError`; `Duplicate` is the
      database's `IntegrityError` when `save()` meets a unique column
      (`email` or `username`) whose value another account already holds. */
  datatype ManagerError = EmailNotSet | Duplicate

  /** The value a `CharField` without a default takes when the constructor
      is not given one. */
  const NoUsername: string := ""

  /** A row built from email, name and username: every other column takes
      its declared default (`is_private` and `is_staff` off, `is_active` on,
      `is_superuser` off from the permissions mixin). */
  function NewUser(id: UserId, email: string, name: string, username: string, credential: Credential): (u: User)
    ensures u.id == id && u.email == email && u.name == name && u.username == username
    ensures u.credential == credential
    ensures !u.isPrivate && u.isActive && !u.isStaff && !u.isSuperuser
    ensures u.bio == None && u.link == None
  {
    User(id, email, name, username, None, None, false, true, false, false, credential)
  }

  predicate EmailTaken(existing: set<User>, email: string)
  {
    exists v :: v in existing && v.email == email
  }

  predicate UsernameTaken(existing: set<User>, username: string)
  {
    exists v :: v in existing && v.username == username
  }

  /** No two stored accounts share an email or a username. */
  ghost predicate UniqueColumns(existing: set<User>)
  {
    forall v, w :: v in existing && w in existing && v != w ==> v.email != w.email && v.username != w.username
  }

  /** `user.save()` of a new row: refused when a unique column collides. */
  function Save(existing: set<User>, u: User): (r: Result<User, ManagerError>)
    ensures r.Ok? <==> !EmailTaken(existing, u.email) && !UsernameTaken(existing, u.username)
    ensures r.Ok? ==> r.value == u
    ensures r.Err? ==> r.error == Duplicate
  {
    if EmailTaken(existing, u.email) || UsernameTaken(existing, u.username) then Err(Duplicate)
    else Ok(u)
  }

  /** A successful save keeps the unique columns unique. */
  lemma SaveKeepsUnique(existing: set<User>, u: User)
    requires UniqueColumns(existing)
    requires Save(existing, u).Ok?
    ensures UniqueColumns(existing + {u})
  {
  }

  /** Python truthiness of an optional string: `None` and `''` are both falsy. */
  predicate Truthy(s: Option<string>)
  {
    s.Some? && |s.value| > 0
  }

  function CredentialFor(password: Option<string>): Credential
  {
    match password
    case None => Unusable
    case Some(p) => PasswordOf(p)
  }

  /** `UserManager.create_user` as written: refuses a missing or empty email,
      then saves an account whose `username` is left at its empty default,
      so the save collides with any account that already has the empty
      username.  `existing` are the stored accounts, `id` the new key. */
  function CreateUser(existing: set<User>, id: UserId, email: Option<string>, name: string, password: Option<string>): (r: Result<User, ManagerError>)
    ensures r == Err(EmailNotSet) <==> !Truthy(email)
    ensures r == Err(Duplicate) <==>
      Truthy(email) && (EmailTaken(existing, email.value) || UsernameTaken(existing, NoUsername))
    ensures r.Ok? ==> Some(r.value.email) == email && r.value.name == name && r.value.id == id
    ensures r.Ok? ==> r.value.username == NoUsername
    ensures r.Ok? ==> r.value.credential == CredentialFor(password)
    ensures r.Ok? ==> !r.value.isStaff && !r.value.isSuperuser && r.value.isActive && !r.value.isPrivate
  {
    if !Truthy(email) then Err(EmailNotSet)
    else Save(existing, NewUser(id, email.value, name, NoUsername, CredentialFor(password)))
  }

  /** Once any account made by `create_user` exists, every later
      `create_user` fails, whatever email it is given. */
  lemma SecondAccountFails(existing: set<User>, first: User, id: UserId, email: Option<string>, name: string, password: Option<string>)
    requires first in existing && first.username == NoUsername
    ensures CreateUser(existing, id, email, name, password).Err?
  {
    assert UsernameTaken(existing, NoUsername);
  }

  /** The same for two calls in a row from an empty directory, with two
      different emails: the first succeeds, the second does not. */
  lemma SecondAccountFailsFromEmpty(a: string, b: string, name: string)
    requires |a| > 0 && |b| > 0 && a != b
    ensures CreateUser({}, 1, Some(a), name, None).Ok?
    ensures CreateUser({CreateUser({}, 1, Some(a), name, None).value}, 2, Some(b), name, None) == Err(Duplicate)
  {
    var first := CreateUser({}, 1, Some(a), name, None).value;
    SecondAccountFails({first}, first, 2, Some(b), name, None);
  }

  /** `create_user` with the account's username supplied, so that each
      account can have its own: it fails exactly on a missing email or on an
      email or username that is already taken. */
  function CreateUserNamed(existing: set<User>, id: UserId, email: Option<string>, name: string, username: string, password: Option<string>): (r: Result<User, ManagerError>)
    ensures r == Err(EmailNotSet) <==> !Truthy(email)
    ensures r == Err(Duplicate) <==>
      Truthy(email) && (EmailTaken(existing, email.value) || UsernameTaken(existing, username))
    ensures r.Ok? ==> Some(r.value.email) == email && r.value.name == name && r.value.username == username
    ensures r.Ok? ==> r.value.credential == CredentialFor(password)
    ensures r.Ok? ==> !r.value.isStaff && !r.value.isSuperuser && r.value.isActive && !r.value.isPrivate
  {
    if !Truthy(email) then Err(EmailNotSet)
    else Save(existing, NewUser(id, email.value, name, username, CredentialFor(password)))
  }

  /** With its own username, a second account with a fresh email is created. */
  lemma NamedAccountsCoexist(a: string, b: string, ua: string, ub: string, name: string)
    requires |a| > 0 && |b| > 0 && a != b && ua != ub
    ensures CreateUserNamed({}, 1, Some(a), name, ua, None).Ok?
    ensures CreateUserNamed({CreateUserNamed({}, 1, Some(a), name, ua, None).value}, 2, Some(b), name, ub, None).Ok?
  {
    var first := CreateUserNamed({}, 1, Some(a), name, ua, None).value;
    assert !EmailTaken({first}, b);
    assert !UsernameTaken({first}, ub);
  }

  /** `UserManager.create_superuser`: `create_user`, then both staff flags set. */
  function CreateSuperuser(existing: set<User>, id: UserId, email: Option<string>, name: string, password: Option<string>): (r: Result<User, ManagerError>)
    ensures r.Err? <==> CreateUser(existing, id, email, name, password).Err?
    ensures r == Err(EmailNotSet) <==> !Truthy(email)
    ensures r.Ok? ==> r.value.isStaff && r.value.isSuperuser
    ensures r.Ok? ==> r.value.isActive && !r.value.isPrivate
    ensures r.Ok? ==> Some(r.value.email) == email && r.value.name == name
    ensures r.Ok? ==> r.value.credential == CredentialFor(password)
  {
    match CreateUser(existing, id, email, name, password)
    case Err(e) => Err(e)
    case Ok(u) => Ok(u.(isStaff := true, isSuperuser := true))
  }

  /** `CustomUser.is_profile_private`. */
  function IsProfilePrivate(u: User): (p: bool)
    ensures p <==> u.isPrivate
  {
    u.isPrivate
  }

  /** A superuser differs from the ordinary account created from the same
      arguments in the two staff flags and nothing else. */
  lemma SuperuserOnlyAddsFlags(existing: set<User>, id: UserId, email: Option<string>, name: string, password: Option<string>)
    ensures CreateSuperuser(existing, id, email, name, password).Ok? == CreateUser(existing, id, email, name, password).Ok?
    ensures CreateUser(existing, id, email, name, password).Ok? ==>
      CreateSuperuser(existing, id, email, name, password).value
        == CreateUser(existing, id, email, name, password).value.(isStaff := true, isSuperuser := true)
  {
  }

  /** Every account the manager creates starts with a public profile. */
  lemma NewAccountsArePublic(existing: set<User>, id: UserId, email: Option<string>, name: string, password: Option<string>)
    ensures CreateUser(existing, id, email, name, password).Ok? ==>
      !IsProfilePrivate(CreateUser(existing, id, email, name, password).value)
    ensures CreateSuperuser(existing, id, email, name, password).Ok? ==>
      !IsProfilePrivate(CreateSuperuser(existing, id, email, name, password).value)
  {
  }
}

=== FILE: fields.dfy ===
/** Cleaning of a Django REST framework `CharField`, the field a serializer
    builds for a model's `CharField` or `TextField` and for a declared
    `serializers.CharField`: surrounding whitespace is stripped, a blank value
    is refused unless the field allows blanks, then the maximum length and
    the ban on NUL characters are checked. */
module Fields {
  import opened Results

  /** The characters Python's `str.strip()` removes, among ASCII: space, tab,
      line feed, vertical tab, form feed, carriage return and the four
      separator controls 0x1C to 0x1F. */
  predicate IsSpace(c: char)
  {
    c == ' ' || 9 <= c as int <= 13 || 28 <= c as int <= 31
  }

  /** `s` with its leading whitespace removed. */
  function StripLeft(s: string): (r: string)
    ensures |r| <= |s| && r == s[|s| - |r|..]
    ensures forall k :: 0 <= k < |s| - |r| ==> IsSpace(s[k])
    ensures |r| > 0 ==> !IsSpace(r[0])
  {
    if |s| > 0 && IsSpace(s[0]) then StripLeft(s[1..]) else s
  }

  /** `s` with its trailing whitespace removed. */
  function StripRight(s: string): (r: string)
    ensures |r| <= |s| && r == s[..|r|]
    ensures forall k :: |r| <= k < |s| ==> IsSpace(s[k])
    ensures |r| > 0 ==> !IsSpace(r[|r| - 1])
  {
    if |s| > 0 && IsSpace(s[|s| - 1]) then StripRight(s[..|s| - 1]) else s
  }

  /** Python's `s.strip()`. */
  function Strip(s: string): (r: string)
  {
    StripRight(StripLeft(s))
  }

  /** How many leading characters `Strip` cuts away. */
  function StripStart(s: string): (i: nat)
    ensures i <= |s|
  {
    |s| - |StripLeft(s)|
  }

  /** `StripRight` keeps a prefix and cuts only whitespace. */
  lemma StripRightPrefix(l: string)
    ensures StripRight(l) == l[..|StripRight(l)|]
    ensures forall k :: |StripRight(l)| <= k < |l| ==> IsSpace(l[k])
  {
  }

  /** A prefix of a suffix is a middle slice. */
  lemma SliceOfSuffix(s: string, i: nat, n: nat)
    requires i + n <= |s|
    ensures s[i..][..n] == s[i..i + n]
  {
  }

  /** The stripped value is a slice of the input. */
  lemma StripIsSlice(s: string)
    ensures StripStart(s) + |Strip(s)| <= |s|
    ensures Strip(s) == s[StripStart(s)..StripStart(s) + |Strip(s)|]
  {
    var l := StripLeft(s);
    var r := StripRight(l);
    var i := |s| - |l|;
    assert l == s[i..];
    assert r == l[..|r|];
    SliceOfSuffix(s, i, |r|);
  }

  /** The stripped value is a slice of the input with only whitespace cut
      away on either side, and it neither starts nor ends with whitespace. */
  lemma StripSlice(s: string)
    ensures StripStart(s) + |Strip(s)| <= |s|
    ensures Strip(s) == s[StripStart(s)..StripStart(s) + |Strip(s)|]
    ensures forall k :: 0 <= k < StripStart(s) ==> IsSpace(s[k])
    ensures forall k :: StripStart(s) + |Strip(s)| <= k < |s| ==> IsSpace(s[k])
    ensures |Strip(s)| > 0 ==> !IsSpace(Strip(s)[0]) && !IsSpace(Strip(s)[|Strip(s)| - 1])
  {
    var l := StripLeft(s);
    var i := StripStart(s);
    var n := |Strip(s)|;
    StripIsSlice(s);
    StripRightPrefix(l);
    forall k | i + n <= k < |s|
      ensures IsSpace(s[k])
    {
      assert s[k] == l[k - i];
    }
    if n > 0 {
      assert Strip(s)[0] == l[0];
    }
  }

  /** Stripping removes everything exactly when the value is all whitespace. */
  lemma StripEmptyIff(s: string)
    ensures Strip(s) == [] <==> forall k :: 0 <= k < |s| ==> IsSpace(s[k])
  {
    StripSlice(s);
  }

  /** A value without surrounding whitespace is left as it is. */
  lemma {:induction false} StripKeepsTrimmed(s: string)
    requires |s| > 0 ==> !IsSpace(s[0]) && !IsSpace(s[|s| - 1])
    ensures Strip(s) == s
  {
  }

  /** A value that has no surrounding whitespace, fits and has no NUL
      character comes out of cleaning unchanged. */
  lemma CleanKeepsTrimmed(s: string, maxLength: nat)
    requires 0 < |s| <= maxLength && '\0' !in s
    requires !IsSpace(s[0]) && !IsSpace(s[|s| - 1])
    ensures CleanChar(s, Some(maxLength), false) == Ok(s)
    ensures CleanChar(s, None, false) == Ok(s)
  {
    StripKeepsTrimmed(s);
  }

  /** One trailing space is cut from a value that is otherwise trimmed. */
  lemma TrailingSpaceIsStripped(s: string)
    requires 0 < |s| && !IsSpace(s[0]) && !IsSpace(s[|s| - 1])
    ensures Strip(s + " ") == s
  {
    var q := s + " ";
    assert StripLeft(q) == q;
    assert q[..|q| - 1] == s;
    StripKeepsTrimmed(s);
  }

  datatype FieldError =
    | Required      // "This field is required."
    | Blank         // "This field may not be blank."
    | TooLong(max: nat)
    | NulCharacter  // "Null characters are not allowed."

  /** `CharField.run_validation` on a submitted string.  When several
      validators fail, the first in declaration order is reported. */
  function CleanChar(raw: string, maxLength: Option<nat>, allowBlank: bool): (r: Result<string, FieldError>)
    ensures r.Ok? ==> r.value == Strip(raw)
    ensures r == Err(Blank) <==> !allowBlank && Strip(raw) == []
    ensures r.Ok? <==>
      (allowBlank || Strip(raw) != [])
      && (maxLength.Some? ==> |Strip(raw)| <= maxLength.value)
      && '\0' !in Strip(raw)
    ensures r.Ok? && !allowBlank ==> |r.value| > 0
  {
    var v := Strip(raw);
    if !allowBlank && v == [] then Err(Blank)
    else if maxLength.Some? && |v| > maxLength.value then Err(TooLong(maxLength.value))
    else if '\0' in v then Err(NulCharacter)
    else Ok(v)
  }
}

=== FILE: follow.dfy ===
/** Follow and unfollow through `UserContactViewSet.create` (user/views.py).
    The `FollowingSystem` model it writes to is not part of this model; it
    is taken to be a table of (follower, followed) rows with no unique
    constraint, which is why an unfollow deletes every matching row and a
    follow can meet more than one. */
module Follow {
  import opened Results
  import opened Accounts
  import opened Tables

  datatype Edge = Edge(from: UserId, to: UserId)

  type Graph = seq<Edge>

  /** The request body once `UserContactSerializer` accepted it. */
  datatype ContactRequest = ContactRequest(userTo: UserId, action: string)

  datatype ContactResponse =
    | ContactInvalid        // the request data did not validate: 400
    | TargetMissing         // `CustomUser.objects.get` raises outside the `try`: 500
    | NoNeedToFollowYourself
    | ContactError          // the bare `except` answers {'status': 'error'}
    | Relations(user: UserId)   // the requester's follower/following listing

  datatype ContactOutcome = ContactOutcome(graph: Graph, response: ContactResponse)

  /** `FollowingSystem.objects.get_or_create(user_from=a, user_to=b)`: creates
      the row when none exists, returns the existing one when exactly one
      does, and raises when several do. */
  function GetOrCreate(g: Graph, e: Edge): (r: Result<Graph, ContactResponse>)
    ensures r.Err? <==> Count(g, e) > 1
    ensures r.Ok? ==> Count(r.value, e) == 1
    ensures r.Ok? ==> forall f :: f != e ==> Count(r.value, f) == Count(g, f)
  {
    if Count(g, e) == 0 then
      assert forall f :: Count(g + [e], f) == Count(g, f) + (if e == f then 1 else 0) by {
        forall f { CountAppend(g, e, f); }
      }
      Ok(g + [e])
    else if Count(g, e) == 1 then Ok(g)
    else Err(ContactError)
  }

  /** `UserContactViewSet.create`.  `request` is `None` when
      `UserContactSerializer` refused the data; `users` are the existing
      account ids. */
  function Contact(users: set<UserId>, g: Graph, requester: UserId, request: Option<ContactRequest>): (o: ContactOutcome)
    ensures o.response.ContactInvalid? <==> request.None?
    ensures request.Some? ==>
      (o.response == TargetMissing <==> request.value.userTo !in users)
    ensures request.Some? && request.value.userTo in users ==>
      (o.response == NoNeedToFollowYourself <==> request.value.userTo == requester)
    ensures o.response.Relations? ==> o.response.user == requester
    ensures o.response != Relations(requester) ==> o.graph == g
  {
    match request
    case None => ContactOutcome(g, ContactInvalid)
    case Some(req) =>
      if req.userTo !in users then ContactOutcome(g, TargetMissing)
      else if requester == req.userTo then ContactOutcome(g, NoNeedToFollowYourself)
      else
        var e := Edge(requester, req.userTo);
        if req.action == "follow" then
          match GetOrCreate(g, e)
          case Err(resp) => ContactOutcome(g, resp)
          case Ok(g') => ContactOutcome(g', Relations(requester))
        else if req.action == "unfollow" then
          ContactOutcome(Delete(g, e), Relations(requester))
        else
          ContactOutcome(g, Relations(requester))
  }

  /** Following yourself creates and deletes nothing. */
  lemma SelfFollowIsRefused(users: set<UserId>, g: Graph, a: UserId, action: string)
    requires a in users
    ensures Contact(users, g, a, Some(ContactRequest(a, action))) == ContactOutcome(g, NoNeedToFollowYourself)
  {
  }

  /** After a follow (a != b, b exists) there is exactly one a-to-b row,
      unless the table already held several; every other row is untouched. */
  lemma FollowEffect(users: set<UserId>, g: Graph, a: UserId, b: UserId)
    requires b in users && a != b
    ensures var o := Contact(users, g, a, Some(ContactRequest(b, "follow")));
      && (Count(g, Edge(a, b)) <= 1 ==> o.response == Relations(a) && Count(o.graph, Edge(a, b)) == 1)
      && (Count(g, Edge(a, b)) > 1 ==> o == ContactOutcome(g, ContactError))
      && forall f :: f != Edge(a, b) ==> Count(o.graph, f) == Count(g, f)
  {
  }

  /** Following twice is the same as following once. */
  lemma FollowIdempotent(users: set<UserId>, g: Graph, a: UserId, b: UserId)
    ensures var once := Contact(users, g, a, Some(ContactRequest(b, "follow")));
      Contact(users, once.graph, a, Some(ContactRequest(b, "follow"))) == once
  {
    var e := Edge(a, b);
    if b in users && a != b && Count(g, e) == 0 {
      assert Count(g + [e], e) == 1 by { CountAppend(g, e, e); }
    }
  }

  /** An unfollow removes every a-to-b row, which is a no-op when there is
      none, and leaves every other row untouched. */
  lemma UnfollowEffect(users: set<UserId>, g: Graph, a: UserId, b: UserId)
    requires b in users && a != b
    ensures var o := Contact(users, g, a, Some(ContactRequest(b, "unfollow")));
      && o.response == Relations(a)
      && Count(o.graph, Edge(a, b)) == 0
      && (Edge(a, b) !in g ==> o.graph == g)
      && forall f :: f != Edge(a, b) ==> Count(o.graph, f) == Count(g, f)
  {
    var e := Edge(a, b);
    if e !in g {
      DeleteAbsent(g, e);
    }
  }

  /** Any action other than "follow" and "unfollow" leaves the graph alone. */
  lemma OtherActionsChangeNothing(users: set<UserId>, g: Graph, a: UserId, req: ContactRequest)
    requires req.action != "follow" && req.action != "unfollow"
    ensures Contact(users, g, a, Some(req)).graph == g
  {
  }

  /** If the graph never held a duplicate row, no request creates one. */
  lemma ContactKeepsUnique(users: set<UserId>, g: Graph, a: UserId, request: Option<ContactRequest>)
    requires Unique(g)
    ensures Unique(Contact(users, g, a, request).graph)
  {
    var o := Contact(users, g, a, request);
    if o.graph != g {
      var e := Edge(a, request.value.userTo);
      forall f
        ensures Count(o.graph, f) <= 1
      {
        assert Count(g, f) <= 1;
      }
    }
  }
}

=== FILE: likes.dfy ===
/** The like relation between accounts and a kind of object (threads here):
    the `Like` through table of `Thread.likes` (thread/models.py,
    thread/migrations/0002_initial.py) and the generic liked-users listing
    of `LikedUsersListMixin` (thread/mixins.py). */
module Likes {
  import opened Accounts
  import opened Tables

  /** One row of the through table. */
  datatype Like<O> = Like(user: UserId, target: O)

  /** The accounts that like `o`: `o.likes.all()`. */
  function Likers<O(==,!new)>(rows: seq<Like<O>>, o: O): (s: set<UserId>)
    ensures forall u :: u in s <==> Like(u, o) in rows
  {
    set r | r in rows && r.target == o :: r.user
  }

  /** `o.likes.count()`: the number of through-table rows for `o`. */
  function RowCount<O(==,!new)>(rows: seq<Like<O>>, o: O): (n: nat)
    ensures n == 0 <==> Likers(rows, o) == {}
  {
    if |rows| == 0 then 0
    else
      assert forall r :: r in rows <==> r == rows[0] || r in rows[1..];
      (if rows[0].target == o then 1 else 0) + RowCount(rows[1..], o)
  }

  /** With the (user, thread) unique constraint in force, the row count is
      the number of distinct likers. */
  lemma {:induction false} CountIsCardinality<O(!new)>(rows: seq<Like<O>>, o: O)
    requires Unique(rows)
    ensures RowCount(rows, o) == |Likers(rows, o)|
  {
    if |rows| == 0 {
      assert Likers(rows, o) == {};
    } else {
      var h, rest := rows[0], rows[1..];
      assert rows == [h] + rest;
      assert Count(rows, h) == 1 + Count(rest, h);
      assert h !in rest;
      forall y
        ensures Count(rest, y) <= 1
      {
        assert Count(rows, y) == (if h == y then 1 else 0) + Count(rest, y);
      }
      CountIsCardinality(rest, o);
      if h.target == o {
        assert Likers(rows, o) == Likers(rest, o) + {h.user};
        assert h.user !in Likers(rest, o);
      } else {
        assert Likers(rows, o) == Likers(rest, o);
      }
    }
  }

  /** Without the constraint the two can differ: two identical rows count
      twice but name one liker. */
  lemma DuplicatesBreakTheCount<O(!new)>(u: UserId, o: O)
    ensures RowCount([Like(u, o), Like(u, o)], o) == 2
    ensures |Likers([Like(u, o), Like(u, o)], o)| == 1
  {
    assert Likers([Like(u, o), Like(u, o)], o) == {u};
  }

  /** The like view's toggle: `remove` when `u` already likes `o`, `add`
      otherwise. */
  function Toggle<O(==,!new)>(rows: seq<Like<O>>, u: UserId, o: O): (r: seq<Like<O>>)
    ensures u in Likers(rows, o) ==> Likers(r, o) == Likers(rows, o) - {u}
    ensures u !in Likers(rows, o) ==> Likers(r, o) == Likers(rows, o) + {u}
    ensures forall p :: p != o ==> Likers(r, p) == Likers(rows, p)
    ensures Unique(rows) ==> Unique(r)
  {
    var x := Like(u, o);
    if x in rows then
      var r := Delete(rows, x);
      assert forall y :: y in r <==> y in rows && y != x by {
        forall y { DeleteMembership(rows, x, y); }
      }
      r
    else
      var r := rows + [x];
      assert forall y :: Count(r, y) == Count(rows, y) + (if x == y then 1 else 0) by {
        forall y { CountAppend(rows, x, y); }
      }
      r
  }

  /** Each toggle moves the like count by exactly one, up when it adds a
      like and down when it removes one. */
  lemma ToggleCountStep<O(!new)>(rows: seq<Like<O>>, u: UserId, o: O)
    requires Unique(rows)
    ensures u in Likers(rows, o) ==> RowCount(Toggle(rows, u, o), o) + 1 == RowCount(rows, o)
    ensures u !in Likers(rows, o) ==> RowCount(Toggle(rows, u, o), o) == RowCount(rows, o) + 1
  {
    var r := Toggle(rows, u, o);
    CountIsCardinality(rows, o);
    CountIsCardinality(r, o);
  }

  /** Toggling twice gives back the same rows, up to their order. */
  lemma ToggleTwice<O(!new)>(rows: seq<Like<O>>, u: UserId, o: O)
    requires Unique(rows)
    ensures forall y :: Count(Toggle(Toggle(rows, u, o), u, o), y) == Count(rows, y)
  {
    var x := Like(u, o);
    if x in rows {
      var d := Delete(rows, x);
      assert x !in d;
      forall y
        ensures Count(d + [x], y) == Count(rows, y)
      {
        CountAppend(d, x, y);
        assert Count(rows, x) == 1;
      }
    } else {
      DeleteAppended(rows, x);
    }
  }

  /** Toggling twice gives back every object's likers and like count. */
  lemma ToggleTwiceLikers<O(!new)>(rows: seq<Like<O>>, u: UserId, o: O)
    requires Unique(rows)
    ensures forall p :: Likers(Toggle(Toggle(rows, u, o), u, o), p) == Likers(rows, p)
    ensures RowCount(Toggle(Toggle(rows, u, o), u, o), o) == RowCount(rows, o)
  {
    var twice := Toggle(Toggle(rows, u, o), u, o);
    ToggleTwice(rows, u, o);
    forall p
      ensures Likers(twice, p) == Likers(rows, p)
    {
      forall v
        ensures Like(v, p) in twice <==> Like(v, p) in rows
      {
        assert Count(twice, Like(v, p)) == Count(rows, Like(v, p));
      }
    }
    CountIsCardinality(rows, o);
    CountIsCardinality(twice, o);
  }

  /** `LikedUsersListMixin.get_queryset`: the accounts among `users` with a
      like on the object `id`, or no one when no object has that id. */
  function LikedUsers<O(==,!new)>(users: set<UserId>, objects: set<O>, rows: seq<Like<O>>, id: O): (s: set<UserId>)
    ensures id !in objects ==> s == {}
    ensures forall u :: u in s ==> u in users && Like(u, id) in rows
    ensures id in objects ==> forall u :: u in users && Like(u, id) in rows ==> u in s
  {
    if id !in objects then {}
    else set u | u in users && u in Likers(rows, id)
  }

  /** Rows that refer only to existing accounts and objects (the foreign keys). */
  ghost predicate RowsRefer<O(!new)>(users: set<UserId>, objects: set<O>, rows: seq<Like<O>>)
  {
    forall r :: r in rows ==> r.user in users && r.target in objects
  }

  /** With the foreign keys in force the listing is exactly the likers of an
      existing object. */
  lemma LikedUsersAreLikers<O(!new)>(users: set<UserId>, objects: set<O>, rows: seq<Like<O>>, id: O)
    requires RowsRefer(users, objects, rows)
    requires id in objects
    ensures LikedUsers(users, objects, rows, id) == Likers(rows, id)
  {
  }
}

=== FILE: login.dfy ===
/** The access-token lifetime of `UserLoginView.post` (user/views.py).
    Checking the credentials and minting the tokens belong to the
    authentication and token libraries; their answers arrive here as
    parameters. */
module Login {
  import opened Results
  import opened Accounts

  /** Lifetime of an access token: the token library's configured default,
      or a number of days set with `set_exp`. */
  datatype Lifetime = DefaultLifetime | Days(n: nat)

  datatype LoginError = InvalidCredentials

  /** The lifetime the view asks for, given whether the account has a linked
      social account.  Both branches of `UserLoginView.post` do the same
      thing. */
  function AccessLifetime(hasSocialAccount: bool, rememberMe: bool): (l: Lifetime)
    ensures l == Days(7) <==> rememberMe
    ensures !rememberMe ==> l == DefaultLifetime
  {
    if !hasSocialAccount then
      (if rememberMe then Days(7) else DefaultLifetime)
    else
      (if rememberMe then Days(7) else DefaultLifetime)
  }

  /** Whether the account has a linked social login never changes the lifetime. */
  lemma SocialAccountIrrelevant(rememberMe: bool)
    ensures AccessLifetime(true, rememberMe) == AccessLifetime(false, rememberMe)
  {
  }

  /** An access token as the token library builds it. */
  datatype AccessToken = AccessToken(user: UserId, lifetime: Lifetime)

  /** `refresh.access_token`: each read builds a new access token for the
      refresh token's account, with the default lifetime. */
  function AccessTokenOf(user: UserId): (t: AccessToken)
    ensures t.user == user && t.lifetime == DefaultLifetime
  {
    AccessToken(user, DefaultLifetime)
  }

  /** `token.set_exp(lifetime=...)`, as a new value. */
  function SetExp(t: AccessToken, l: Lifetime): (t': AccessToken)
    ensures t'.user == t.user && t'.lifetime == l
  {
    t.(lifetime := l)
  }

  /** The access token the response carries, as the view is written: the
      token whose lifetime `set_exp` changes is dropped, and the response
      reads `refresh.access_token` again. */
  function IssuedAsWritten(user: UserId, hasSocialAccount: bool, rememberMe: bool): AccessToken
  {
    var _ := SetExp(AccessTokenOf(user), AccessLifetime(hasSocialAccount, rememberMe));
    AccessTokenOf(user)
  }

  /** As written, "remember me" never reaches the issued token. */
  lemma RememberMeIsLost(user: UserId, hasSocialAccount: bool)
    ensures IssuedAsWritten(user, hasSocialAccount, true).lifetime == DefaultLifetime
    ensures IssuedAsWritten(user, hasSocialAccount, true).lifetime != AccessLifetime(hasSocialAccount, true)
  {
  }

  /** The access token the response carries when the lifetime is set on the
      very token that is returned. */
  function IssuedIntended(user: UserId, hasSocialAccount: bool, rememberMe: bool): (t: AccessToken)
    ensures t.user == user
    ensures t.lifetime == Days(7) <==> rememberMe
    ensures t.lifetime == AccessLifetime(hasSocialAccount, rememberMe)
  {
    var token := AccessTokenOf(user);
    if rememberMe then SetExp(token, Days(7)) else token
  }

  /** `UserLoginView.post` as written: `authenticated` is what
      `authenticate(email=..., password=...)` returned; an unknown or
      inactive account is refused, and an accepted login answers with a
      freshly read access token. */
  function LoginAsWritten(authenticated: Option<User>, hasSocialAccount: bool, rememberMe: bool)
    : (r: Result<AccessToken, LoginError>)
    ensures r.Ok? <==> authenticated.Some? && authenticated.value.isActive
    ensures r.Ok? ==> r.value.user == authenticated.value.id && r.value.lifetime == DefaultLifetime
  {
    if authenticated.None? || !authenticated.value.isActive then Err(InvalidCredentials)
    else Ok(IssuedAsWritten(authenticated.value.id, hasSocialAccount, rememberMe))
  }

  /** `UserLoginView.post` with the lifetime set on the token it returns:
      it refuses the same requests as the view as written, and an accepted
      login gets the access token with the intended lifetime. */
  function Login(authenticated: Option<User>, hasSocialAccount: bool, rememberMe: bool): (r: Result<AccessToken, LoginError>)
    ensures r.Ok? <==> authenticated.Some? && authenticated.value.isActive
    ensures r.Ok? ==> r.value.user == authenticated.value.id
    ensures r.Ok? ==> (r.value.lifetime == Days(7) <==> rememberMe)
  {
    if authenticated.None? || !authenticated.value.isActive then Err(InvalidCredentials)
    else Ok(IssuedIntended(authenticated.value.id, hasSocialAccount, rememberMe))
  }

  /** The two logins agree on who gets in and differ exactly on the
      lifetime of a "remember me" login. */
  lemma LoginCorrectsRememberMe(authenticated: Option<User>, hasSocialAccount: bool, rememberMe: bool)
    ensures Login(authenticated, hasSocialAccount, rememberMe).Ok?
        <==> LoginAsWritten(authenticated, hasSocialAccount, rememberMe).Ok?
    ensures Login(authenticated, hasSocialAccount, rememberMe).Ok? ==>
      (Login(authenticated, hasSocialAccount, rememberMe) == LoginAsWritten(authenticated, hasSocialAccount, rememberMe)
       <==> !rememberMe)
  {
  }
}

=== FILE: otp.dfy ===
/** One-time passwords for the forgot-password flow: the `OTP` model
    (user/models.py) and the two views that change the OTP table,
    `ForgotPasswordView.post` and `VerifyOTPView.post` (user/views.py). */
module Otp {
  import opened Results
  import opened Accounts

  /** Timestamps are whole microseconds, the resolution of a Django
      `DateTimeField`. */
  type Timestamp = int

  const MicrosPerMinute: int := 60 * 1000 * 1000
  const ExpiryWindow: int := 5 * MicrosPerMinute

  /** `generate_otp` draws this many characters from `string.digits`. */
  const CodeLength: nat := 4
  const Digits: string := "0123456789"
  /** `OTP.otp` is a `CharField(max_length=4)`. */
  const MaxCodeLength: nat := 4

  /** A row of the OTP table. */
  datatype OtpRow = OtpRow(user: UserId, code: string, createdAt: Timestamp)

  type OtpTable = seq<OtpRow>

  predicate IsOtpShape(s: string)
  {
    |s| == CodeLength && forall i :: 0 <= i < |s| ==> '0' <= s[i] <= '9'
  }

  /** Valid outcomes of `random.choice(string.digits)`, as indices into `Digits`. */
  predicate ValidPicks(picks: seq<nat>)
  {
    |picks| == CodeLength && forall i :: 0 <= i < |picks| ==> picks[i] < |Digits|
  }

  /** `OTP.generate_otp`.  The random choices are a parameter: `picks[i]` is
      the index of the digit drawn for position `i`. */
  function GenerateOtp(picks: seq<nat>): (code: string)
    requires ValidPicks(picks)
    ensures IsOtpShape(code)
    ensures |code| <= MaxCodeLength
  {
    seq(CodeLength, i requires 0 <= i < CodeLength => Digits[picks[i]])
  }

  /** Every four-digit string is a possible code. */
  lemma EveryCodeReachable(code: string)
    requires IsOtpShape(code)
    ensures exists picks :: ValidPicks(picks) && GenerateOtp(picks) == code
  {
    var picks := seq(CodeLength, i requires 0 <= i < CodeLength => (code[i] as int - '0' as int) as nat);
    assert ValidPicks(picks);
    assert GenerateOtp(picks) == code;
  }

  /** `OTP.is_expired`: created strictly before five minutes ago. */
  function IsExpired(row: OtpRow, now: Timestamp): (expired: bool)
    ensures expired <==> now - row.createdAt > ExpiryWindow
  {
    row.createdAt < now - ExpiryWindow
  }

  /** At exactly five minutes an OTP is still valid; one microsecond later it
      is not, and it never becomes valid again as time goes on. */
  lemma ExpiryThreshold(row: OtpRow, now: Timestamp, later: Timestamp)
    requires now <= later
    ensures !IsExpired(row, row.createdAt + ExpiryWindow)
    ensures IsExpired(row, row.createdAt + ExpiryWindow + 1)
    ensures IsExpired(row, now) ==> IsExpired(row, later)
  {
  }

  /** The rows of one user, in table order. */
  function RowsOf(table: OtpTable, u: UserId): (rows: OtpTable)
    ensures forall r :: r in rows <==> r in table && r.user == u
    ensures |rows| <= |table|
  {
    if |table| == 0 then []
    else (if table[0].user == u then [table[0]] else []) + RowsOf(table[1..], u)
  }

  /** `OTP.objects.filter(user=u).delete()`. */
  function DeleteFor(table: OtpTable, u: UserId): (r: OtpTable)
    ensures RowsOf(r, u) == []
    ensures forall v :: v != u ==> RowsOf(r, v) == RowsOf(table, v)
  {
    if |table| == 0 then []
    else
      var rest := DeleteFor(table[1..], u);
      if table[0].user == u then rest
      else
        assert ([table[0]] + rest)[1..] == rest;
        [table[0]] + rest
  }

  lemma {:induction false} RowsOfAppend(table: OtpTable, x: OtpRow, v: UserId)
    ensures RowsOf(table + [x], v) == RowsOf(table, v) + (if x.user == v then [x] else [])
  {
    if |table| == 0 {
      assert table + [x] == [x];
    } else {
      assert (table + [x])[1..] == table[1..] + [x];
      RowsOfAppend(table[1..], x, v);
    }
  }

  /** Every stored code fits its column. */
  predicate CodesFit(table: OtpTable)
  {
    forall r :: r in table ==> |r.code| <= MaxCodeLength
  }

  /** The account directory as the login field sees it: email to account. */
  type Directory = map<string, UserId>

  datatype ForgotResponse =
    | ForgotInvalid          // the request data did not validate: 400
    | UnknownEmail           // no account with this email: 404
    | OtpSent(to: string, code: string)   // code mailed: 200

  datatype ForgotOutcome = ForgotOutcome(table: OtpTable, response: ForgotResponse)

  /** `ForgotPasswordView.post`.  `email` is the validated email, `None` when
      the request data did not validate; `picks` are the draws
      `generate_otp` makes; `now` is the creation time of the new row. */
  function ForgotPassword(directory: Directory, table: OtpTable, email: Option<string>, picks: seq<nat>, now: Timestamp): (o: ForgotOutcome)
    requires ValidPicks(picks)
    ensures email.None? ==> o == ForgotOutcome(table, ForgotInvalid)
    ensures email.Some? && email.value !in directory ==> o == ForgotOutcome(table, UnknownEmail)
    ensures email.Some? && email.value in directory ==>
      var u := directory[email.value];
      && o.response == OtpSent(email.value, GenerateOtp(picks))
      && RowsOf(o.table, u) == [OtpRow(u, GenerateOtp(picks), now)]
      && forall v :: v != u ==> RowsOf(o.table, v) == RowsOf(table, v)
  {
    match email
    case None => ForgotOutcome(table, ForgotInvalid)
    case Some(e) =>
      if e !in directory then ForgotOutcome(table, UnknownEmail)
      else
        var u := directory[e];
        var code := GenerateOtp(picks);
        var cleared := DeleteFor(table, u);
        var row := OtpRow(u, code, now);
        assert forall v :: RowsOf(cleared + [row], v) == RowsOf(cleared, v) + (if u == v then [row] else []) by {
          forall v { RowsOfAppend(cleared, row, v); }
        }
        ForgotOutcome(cleared + [row], OtpSent(e, code))
  }

  datatype VerifyResponse = VerifyInvalid | Verified

  datatype VerifyOutcome = VerifyOutcome(table: OtpTable, response: VerifyResponse)

  /** `VerifyOTPView.post`.  Whether the submitted code checks out is decided
      by `OTPVerificationSerializer`, which is not part of this model:
      `verified` is the account it accepted, `None` when it refused. */
  function VerifyOtp(table: OtpTable, verified: Option<UserId>): (o: VerifyOutcome)
    ensures verified.None? ==> o == VerifyOutcome(table, VerifyInvalid)
    ensures verified.Some? ==> o.response == Verified && RowsOf(o.table, verified.value) == []
    ensures verified.Some? ==> forall v :: v != verified.value ==> RowsOf(o.table, v) == RowsOf(table, v)
  {
    match verified
    case None => VerifyOutcome(table, VerifyInvalid)
    case Some(u) => VerifyOutcome(DeleteFor(table, u), Verified)
  }

  /** Neither view ever stores a code longer than the column allows. */
  lemma {:induction false} CodesStayInColumn(directory: Directory, table: OtpTable, email: Option<string>, picks: seq<nat>, now: Timestamp, verified: Option<UserId>)
    requires ValidPicks(picks)
    requires CodesFit(table)
    ensures CodesFit(ForgotPassword(directory, table, email, picks, now).table)
    ensures CodesFit(VerifyOtp(table, verified).table)
  {
    var o := ForgotPassword(directory, table, email, picks, now);
    forall r | r in o.table
      ensures |r.code| <= MaxCodeLength
    {
      assert r in RowsOf(o.table, r.user);
      if email.Some? && email.value in directory && r.user == directory[email.value] {
        assert r == OtpRow(r.user, GenerateOtp(picks), now);
      } else {
        assert r in RowsOf(table, r.user);
      }
    }
    var w := VerifyOtp(table, verified).table;
    forall r | r in w
      ensures |r.code| <= MaxCodeLength
    {
      assert r in RowsOf(w, r.user);
      assert r in RowsOf(table, r.user);
    }
  }

  /** Asking for a code and then verifying it leaves the account with no
      OTP at all, whatever was stored before. */
  lemma ForgotThenVerifyClears(directory: Directory, table: OtpTable, email: string, picks: seq<nat>, now: Timestamp)
    requires ValidPicks(picks)
    requires email in directory
    ensures var after := ForgotPassword(directory, table, Some(email), picks, now).table;
      RowsOf(VerifyOtp(after, Some(directory[email])).table, directory[email]) == []
  {
  }
}

=== FILE: registration.dfy ===
/** Registration through `CustomUserSerializer` (user/serializers.py): the
    cleaning of its declared fields, the password rules, the
    password/confirmation check and the fields that are actually persisted. */
module Registration {
  import opened Results
  import opened Accounts
  import opened Fields

  const MinLength: nat := 8
  /** `AbstractBaseUser.password` is a `CharField(max_length=128)`, and the
      serializer's `password` field inherits the bound. */
  const PasswordMaxLength: nat := 128

  /** Character classes, exactly as Python's `str.isdigit`, `str.isalpha` and
      `str.isupper` answer for ASCII characters.  Characters outside ASCII
      belong to none of them in this model. */
  predicate IsDigit(c: char) { '0' <= c <= '9' }
  predicate IsUpper(c: char) { 'A' <= c <= 'Z' }
  predicate IsLower(c: char) { 'a' <= c <= 'z' }
  predicate IsAlpha(c: char) { IsUpper(c) || IsLower(c) }

  /** Python's `any(pred(ch) for ch in s)` for each class. */
  predicate HasDigit(s: string) { exists i :: 0 <= i < |s| && IsDigit(s[i]) }
  predicate HasAlpha(s: string) { exists i :: 0 <= i < |s| && IsAlpha(s[i]) }
  predicate HasUpper(s: string) { exists i :: 0 <= i < |s| && IsUpper(s[i]) }

  /** The four password rules, one error each. */
  datatype PasswordError = TooShort | NoDigit | NoLetter | NoUppercase

  function Message(e: PasswordError): string
  {
    match e
    case TooShort => "Password must be at least 8 characters long."
    case NoDigit => "Password must contain at least one digit."
    case NoLetter => "Password must contain at least one letter."
    case NoUppercase => "Password must contain at least one uppercase letter."
  }

  /** Each rule has its own message. */
  lemma MessagesIdentifyRule(e: PasswordError, f: PasswordError)
    ensures Message(e) == Message(f) ==> e == f
  {
  }

  /** The order in which the rules are checked. */
  const Rules: seq<PasswordError> := [TooShort, NoDigit, NoLetter, NoUppercase]

  /** Whether `value` breaks the rule whose error is `e`. */
  predicate Breaks(e: PasswordError, value: string)
  {
    match e
    case TooShort => |value| < MinLength
    case NoDigit => !HasDigit(value)
    case NoLetter => !HasAlpha(value)
    case NoUppercase => !HasUpper(value)
  }

  /** `e` is the first rule in `Rules` that `value` breaks. */
  predicate FirstBroken(e: PasswordError, value: string)
  {
    exists k :: 0 <= k < |Rules| && Rules[k] == e && Breaks(e, value)
      && forall j :: 0 <= j < k ==> !Breaks(Rules[j], value)
  }

  /** `CustomUserSerializer.validate_password`: the first broken rule decides
      the error; a password that breaks none is returned unchanged. */
  function ValidatePassword(value: string): (r: Result<string, PasswordError>)
    ensures r.Ok? <==> forall k :: 0 <= k < |Rules| ==> !Breaks(Rules[k], value)
    ensures r.Ok? ==> r.value == value
    ensures r.Err? ==> FirstBroken(r.error, value)
  {
    if |value| < MinLength then
      assert Rules[0] == TooShort && Breaks(Rules[0], value);
      Err(TooShort)
    else if !HasDigit(value) then
      assert Rules[1] == NoDigit && Breaks(Rules[1], value);
      Err(NoDigit)
    else if !HasAlpha(value) then
      assert Rules[2] == NoLetter && Breaks(Rules[2], value);
      Err(NoLetter)
    else if !HasUpper(value) then
      assert Rules[3] == NoUppercase && Breaks(Rules[3], value);
      Err(NoUppercase)
    else Ok(value)
  }

  /** An uppercase letter is a letter, so the letter rule never rejects a
      password the uppercase rule would accept: the chain accepts exactly the
      passwords of at least eight characters with a digit and an uppercase
      letter.  (The letter rule still decides which error a password with no
      letters at all gets.) */
  lemma AcceptsIff(value: string)
    ensures ValidatePassword(value).Ok? <==> |value| >= MinLength && HasDigit(value) && HasUpper(value)
  {
    if HasUpper(value) {
      var i :| 0 <= i < |value| && IsUpper(value[i]);
      assert IsAlpha(value[i]);
    }
  }

  /** Each rule, on its own, is enough to reject; the error names the
      earliest broken rule. */
  lemma RejectionReasons(value: string)
    ensures |value| < MinLength ==> ValidatePassword(value) == Err(TooShort)
    ensures |value| >= MinLength && !HasDigit(value) ==> ValidatePassword(value) == Err(NoDigit)
    ensures !HasAlpha(value) ==> ValidatePassword(value).Err?
    ensures !HasUpper(value) ==> ValidatePassword(value).Err?
  {
  }

  /** Submitted or validated serializer data, keyed by field name. */
  type Data = map<string, string>

  function Get(data: Data, key: string): Option<string>
  {
    if key in data then Some(data[key]) else None
  }

  datatype MismatchError = PasswordsDoNotMatch

  /** `CustomUserSerializer.validate`: `data.get` of both password fields
      must agree (two absent fields agree); the data passes through untouched. */
  function Validate(data: Data): (r: Result<Data, MismatchError>)
    ensures r.Ok? ==> r.value == data
    ensures r.Err? <==> Get(data, "password") != Get(data, "confirm_password")
  {
    if Get(data, "password") != Get(data, "confirm_password") then Err(PasswordsDoNotMatch)
    else Ok(data)
  }

  /** The keyword arguments handed to the `CustomUser` constructor: the
      validated data with both password fields popped. */
  function ConstructorArgs(validated: Data): (args: Data)
    ensures "password" !in args && "confirm_password" !in args
    ensures forall k :: k in args <==> k in validated && k != "password" && k != "confirm_password"
    ensures forall k :: k in args ==> args[k] == validated[k]
  {
    validated - {"password", "confirm_password"}
  }

  /** The email a `CustomUser` built from `validated` gets: the submitted one,
      or the empty column default when there is none. */
  function EmailOf(validated: Data): string
  {
    if "email" in validated then validated["email"] else ""
  }

  /** `CustomUserSerializer.create`.  Both pops have no default, so both
      password fields must be present; the serializer declares both as
      required.  The new account gets the password through `set_password`,
      the remaining columns' defaults, and so the empty username; `save()`
      fails on a taken email or username. */
  function Create(existing: set<User>, id: UserId, validated: Data): (r: Result<User, ManagerError>)
    requires "password" in validated && "confirm_password" in validated
    ensures r.Ok? <==> !EmailTaken(existing, EmailOf(validated)) && !UsernameTaken(existing, NoUsername)
    ensures r.Ok? ==> r.value.credential == PasswordOf(validated["password"])
    ensures r.Ok? ==> r.value.email == EmailOf(validated)
    ensures r.Ok? ==> r.value.name == (if "name" in validated then validated["name"] else "")
    ensures r.Ok? ==> r.value.username == NoUsername
    ensures r.Ok? ==> !r.value.isPrivate && r.value.isActive && !r.value.isStaff && !r.value.isSuperuser
  {
    var args := ConstructorArgs(validated);
    Save(existing, NewUser(id,
                           EmailOf(args),
                           if "name" in args then args["name"] else "",
                           NoUsername,
                           PasswordOf(validated["password"])))
  }

  /** Django's `EmailField` defaults to 254 characters. */
  const EmailMaxLength: nat := 254
  /** `CustomUser.name` is a `CharField(max_length=100)`. */
  const NameMaxLength: nat := 100

  datatype RegistrationError =
    | FieldInvalid(field: string, reason: FieldError)
    | NotAnEmail    // Django's `EmailValidator` on the `email` field
    | EmailInUse    // the `UniqueValidator` of the `email` field
    | WeakPassword(rule: PasswordError, message: string)
    | Mismatch
    | Conflict      // `save()` raising `IntegrityError`

  /** A required, non-blank serializer `CharField` named `key`, cleaned:
      absent is `Required`, otherwise `CharField` cleaning applies. */
  function CleanField(data: Data, key: string, maxLength: Option<nat>): (r: Result<string, RegistrationError>)
    ensures r.Ok? <==> key in data && CleanChar(data[key], maxLength, false).Ok?
    ensures r.Ok? ==> r.value == Strip(data[key])
    ensures r.Err? ==> r.error.FieldInvalid? && r.error.field == key
    ensures r.Err? ==> (r.error.reason == Required <==> key !in data)
  {
    if key !in data then Err(FieldInvalid(key, Required))
    else match CleanChar(data[key], maxLength, false)
      case Err(e) => Err(FieldInvalid(key, e))
      case Ok(v) => Ok(v)
  }

  /** The serializer's fields, in declaration order, with their bounds. */
  function CleanEmail(data: Data): Result<string, RegistrationError> { CleanField(data, "email", Some(EmailMaxLength)) }
  function CleanName(data: Data): Result<string, RegistrationError> { CleanField(data, "name", Some(NameMaxLength)) }
  function CleanPassword(data: Data): Result<string, RegistrationError> { CleanField(data, "password", Some(PasswordMaxLength)) }
  function CleanConfirm(data: Data): Result<string, RegistrationError> { CleanField(data, "confirm_password", None) }

  /** The fields before `password` are accepted: a clean, well-formed email
      nobody holds and a clean name.  `isEmail` is the verdict of Django's
      `EmailValidator`, a regular expression over the local part and the
      domain, which the model takes as given. */
  predicate IdentityAccepted(isEmail: string -> bool, existing: set<User>, data: Data)
  {
    && CleanEmail(data).Ok? && isEmail(CleanEmail(data).value) && !EmailTaken(existing, CleanEmail(data).value)
    && CleanName(data).Ok?
  }

  /** Every field is accepted on its own, the password by the rules too. */
  predicate FieldsAccepted(isEmail: string -> bool, existing: set<User>, data: Data)
  {
    && IdentityAccepted(isEmail, existing, data)
    && CleanPassword(data).Ok? && ValidatePassword(CleanPassword(data).value).Ok?
    && CleanConfirm(data).Ok?
  }

  /** After every field is accepted: `validate` compares the cleaned
      passwords, and `create` stores the account from the validated data,
      which holds the declared fields only. */
  function Finish(existing: set<User>, id: UserId, email: string, name: string, p: string, c: string)
    : (r: Result<User, RegistrationError>)
    ensures r.Ok? <==> p == c && !EmailTaken(existing, email) && !UsernameTaken(existing, NoUsername)
    ensures r == Err(Mismatch) <==> p != c
    ensures r.Err? ==> r.error == Mismatch || r.error == Conflict
    ensures r == Err(Conflict) ==> EmailTaken(existing, email) || UsernameTaken(existing, NoUsername)
    ensures r.Ok? ==> r.value.credential == PasswordOf(p) && r.value.email == email && r.value.name == name
  {
    var validated := map["email" := email, "name" := name, "password" := p, "confirm_password" := c];
    assert Get(validated, "password") == Some(p) && Get(validated, "confirm_password") == Some(c);
    assert EmailOf(validated) == email;
    match Validate(validated)
    case Err(_) => Err(Mismatch)
    case Ok(v) =>
      match Create(existing, id, v)
      case Err(_) => Err(Conflict)
      case Ok(u) => Ok(u)
  }

  /** The `password` field (cleaned, then `validate_password`) and the
      `confirm_password` field, once email and name are accepted. */
  function RegisterPassword(existing: set<User>, id: UserId, data: Data, email: string, name: string)
    : (r: Result<User, RegistrationError>)
    ensures r.Err? && r.error.WeakPassword? <==>
      CleanPassword(data).Ok? && ValidatePassword(CleanPassword(data).value).Err?
    ensures r.Err? && r.error.WeakPassword? ==>
      r.error.rule == ValidatePassword(CleanPassword(data).value).error && r.error.message == Message(r.error.rule)
    ensures r.Ok? || r == Err(Mismatch) || r == Err(Conflict) ==>
      && CleanPassword(data).Ok? && ValidatePassword(CleanPassword(data).value).Ok?
      && CleanConfirm(data).Ok?
      && r == Finish(existing, id, email, name, CleanPassword(data).value, CleanConfirm(data).value)
    ensures r != Err(EmailInUse) && r != Err(NotAnEmail)
  {
    match CleanPassword(data)
    case Err(e) => Err(e)
    case Ok(p) =>
      match ValidatePassword(p)
      case Err(rule) => Err(WeakPassword(rule, Message(rule)))
      case Ok(_) =>
        match CleanConfirm(data)
        case Err(e) => Err(e)
        case Ok(c) => Finish(existing, id, email, name, p, c)
  }

  /** `UserRegistrationView.post`: `is_valid` runs each declared field's
      validation in the order `email` (cleaning, then the format and the
      uniqueness validators), `name`, `password`, `confirm_password`, then `validate`,
      and `save` calls `create`. */
  function Register(isEmail: string -> bool, existing: set<User>, id: UserId, data: Data)
    : (r: Result<User, RegistrationError>)
    ensures r.Ok? ==> FieldsAccepted(isEmail, existing, data)
    ensures r.Ok? ==> CleanPassword(data).value == CleanConfirm(data).value
    ensures r.Ok? ==> r.value.credential == PasswordOf(Strip(data["password"]))
    ensures r.Ok? ==> r.value.email == Strip(data["email"]) && r.value.name == Strip(data["name"])
    ensures r == Err(NotAnEmail) <==> CleanEmail(data).Ok? && !isEmail(CleanEmail(data).value)
    ensures r == Err(EmailInUse) <==>
      CleanEmail(data).Ok? && isEmail(CleanEmail(data).value) && EmailTaken(existing, CleanEmail(data).value)
    ensures r.Err? && r.error.WeakPassword? <==>
      IdentityAccepted(isEmail, existing, data) && CleanPassword(data).Ok? && ValidatePassword(CleanPassword(data).value).Err?
    ensures r.Err? && r.error.WeakPassword? ==>
      r.error.rule == ValidatePassword(CleanPassword(data).value).error && r.error.message == Message(r.error.rule)
    ensures r == Err(Mismatch) <==> FieldsAccepted(isEmail, existing, data) && CleanPassword(data).value != CleanConfirm(data).value
    ensures r == Err(Conflict) ==> UsernameTaken(existing, NoUsername)
  {
    match CleanEmail(data)
    case Err(e) => Err(e)
    case Ok(email) =>
      if !isEmail(email) then Err(NotAnEmail)
      else if EmailTaken(existing, email) then Err(EmailInUse)
      else match CleanName(data)
      case Err(e) => Err(e)
      case Ok(name) => RegisterPassword(existing, id, data, email, name)
  }

  /** Registration succeeds exactly when every field is accepted, the
      passwords agree after stripping, and the empty username is free. */
  lemma RegisterSucceedsIff(isEmail: string -> bool, existing: set<User>, id: UserId, data: Data)
    ensures Register(isEmail, existing, id, data).Ok? <==>
      && FieldsAccepted(isEmail, existing, data)
      && CleanPassword(data).value == CleanConfirm(data).value
      && !UsernameTaken(existing, NoUsername)
  {
    if FieldsAccepted(isEmail, existing, data) && CleanPassword(data).value == CleanConfirm(data).value {
      var validated := map["email" := CleanEmail(data).value, "name" := CleanName(data).value,
                           "password" := CleanPassword(data).value, "confirm_password" := CleanConfirm(data).value];
      assert EmailOf(validated) == CleanEmail(data).value;
      assert Validate(validated) == Ok(validated);
    }
  }

  /** A registration that succeeds stores a password the rules accept. */
  lemma RegisteredPasswordIsStrong(isEmail: string -> bool, existing: set<User>, id: UserId, data: Data)
    requires Register(isEmail, existing, id, data).Ok?
    ensures var p := Register(isEmail, existing, id, data).value.credential.raw;
      |p| >= MinLength && HasDigit(p) && HasUpper(p) && |p| <= PasswordMaxLength
  {
    AcceptsIff(CleanPassword(data).value);
  }

  /** Whitespace is stripped before the rules run: a password that is
      short once stripped, such as seven characters and a trailing space,
      gets the length error. */
  lemma PaddedPasswordIsTooShort(isEmail: string -> bool, existing: set<User>, id: UserId, data: Data)
    requires IdentityAccepted(isEmail, existing, data) && "password" in data
    requires 0 < |Strip(data["password"])| < MinLength && '\0' !in Strip(data["password"])
    ensures Register(isEmail, existing, id, data) == Err(WeakPassword(TooShort, Message(TooShort)))
  {
    assert CleanPassword(data) == Ok(Strip(data["password"]));
  }

  /** "Abcdef1 " is such a password. */
  lemma SevenAndASpace()
    ensures Strip("Abcdef1 ") == "Abcdef1"
  {
    assert StripLeft("Abcdef1 ") == "Abcdef1 ";
    assert "Abcdef1 "[..7] == "Abcdef1";
    assert StripRight("Abcdef1") == "Abcdef1";
  }

  /** A value with no surrounding whitespace, no NUL, and between one and
      `maxLength` characters: one that cleaning leaves unchanged. */
  predicate AlreadyClean(s: string, maxLength: nat)
  {
    0 < |s| <= maxLength && '\0' !in s && !IsSpace(s[0]) && !IsSpace(s[|s| - 1])
  }

  /** Confirmation and password are compared after stripping: a complete
      request whose password passes the rules registers even when its
      confirmation carries a trailing space. */
  lemma PaddedConfirmationMatches(isEmail: string -> bool, existing: set<User>, id: UserId, email: string, name: string, p: string)
    requires AlreadyClean(email, EmailMaxLength) && AlreadyClean(name, NameMaxLength)
    requires AlreadyClean(p, PasswordMaxLength) && ValidatePassword(p).Ok?
    requires isEmail(email) && !EmailTaken(existing, email) && !UsernameTaken(existing, NoUsername)
    ensures Register(isEmail, existing, id, map["email" := email, "name" := name,
                                      "password" := p, "confirm_password" := p + " "]).Ok?
  {
    var data := map["email" := email, "name" := name, "password" := p, "confirm_password" := p + " "];
    assert data["email"] == email && data["name"] == name;
    assert data["password"] == p && data["confirm_password"] == p + " ";
    CleanKeepsTrimmed(email, EmailMaxLength);
    CleanKeepsTrimmed(name, NameMaxLength);
    CleanKeepsTrimmed(p, PasswordMaxLength);
    TrailingSpaceIsStripped(p);
    assert CleanEmail(data) == Ok(email) && CleanName(data) == Ok(name);
    assert CleanPassword(data) == Ok(p) && CleanConfirm(data) == Ok(p);
    assert FieldsAccepted(isEmail, existing, data);
    RegisterSucceedsIff(isEmail, existing, id, data);
  }

  /** A password longer than the column, once stripped, is refused before
      the rules run, whatever it contains. */
  lemma OverlongPasswordIsRefused(isEmail: string -> bool, existing: set<User>, id: UserId, data: Data)
    requires IdentityAccepted(isEmail, existing, data) && "password" in data
    requires |Strip(data["password"])| > PasswordMaxLength
    ensures Register(isEmail, existing, id, data) == Err(FieldInvalid("password", TooLong(PasswordMaxLength)))
  {
  }

  /** A 129-character password that passes the rules is such a password. */
  lemma StrongButOverlong()
    ensures var p := "Abcdefg1" + seq(121, _ => 'a');
      ValidatePassword(p).Ok? && Strip(p) == p && |p| == PasswordMaxLength + 1
  {
    var p := "Abcdefg1" + seq(121, _ => 'a');
    assert p[0] == 'A' && p[|p| - 1] == 'a';
    StripKeepsTrimmed(p);
    assert IsDigit(p[7]) && IsUpper(p[0]);
  }
}

=== FILE: results.dfy ===
/** The outcome of an operation that can fail with a typed error, the way a
    Django view either answers normally or raises / returns an error response. */
module Results {

  datatype Result<+T, +E> = Ok(value: T) | Err(error: E)

  datatype Option<+T> = None | Some(value: T)
}

=== FILE: tables.dfy ===
/** Database tables as sequences of rows.  A relational table may hold the
    same row several times unless a unique constraint forbids it, so the
    model keeps multiplicities and states uniqueness as a separate predicate. */
module Tables {

  /** Number of rows equal to `x`. */
  function Count<T(==,!new)>(rows: seq<T>, x: T): (n: nat)
    ensures n <= |rows|
    ensures n == 0 <==> x !in rows
  {
    if |rows| == 0 then 0
    else (if rows[0] == x then 1 else 0) + Count(rows[1..], x)
  }

  /** The table satisfies a unique constraint over the whole row. */
  ghost predicate Unique<T(!new)>(rows: seq<T>)
  {
    forall y :: Count(rows, y) <= 1
  }

  /** `DELETE ... WHERE row = x`: every copy of `x` goes, the rest stay in order. */
  function Delete<T(==,!new)>(rows: seq<T>, x: T): (r: seq<T>)
    ensures x !in r
    ensures forall y :: y != x ==> Count(r, y) == Count(rows, y)
    ensures |r| == |rows| - Count(rows, x)
  {
    if |rows| == 0 then []
    else
      var rest := Delete(rows[1..], x);
      if rows[0] == x then rest else [rows[0]] + rest
  }

  /** Appending a row adds one to its own count and leaves every other count alone. */
  lemma {:induction false} CountAppend<T(!new)>(rows: seq<T>, x: T, y: T)
    ensures Count(rows + [x], y) == Count(rows, y) + (if x == y then 1 else 0)
  {
    if |rows| == 0 {
      assert rows + [x] == [x];
    } else {
      assert (rows + [x])[1..] == rows[1..] + [x];
      CountAppend(rows[1..], x, y);
    }
  }

  /** Membership is preserved exactly by `Delete`, except for the deleted row. */
  lemma DeleteMembership<T(!new)>(rows: seq<T>, x: T, y: T)
    ensures y in Delete(rows, x) <==> y in rows && y != x
  {
    if y != x {
      assert Count(Delete(rows, x), y) == Count(rows, y);
    }
  }

  /** Deleting a row that was just appended to a table without it gives the table back. */
  lemma {:induction false} DeleteAppended<T(!new)>(rows: seq<T>, x: T)
    requires x !in rows
    ensures Delete(rows + [x], x) == rows
  {
    if |rows| == 0 {
      assert rows + [x] == [x];
      assert Delete([x][1..], x) == [];
    } else {
      assert (rows + [x])[1..] == rows[1..] + [x];
      DeleteAppended(rows[1..], x);
      assert [rows[0]] + rows[1..] == rows;
    }
  }

  /** Deleting a row the table does not hold changes nothing. */
  lemma {:induction false} DeleteAbsent<T(!new)>(g: seq<T>, e: T)
    requires e !in g
    ensures Delete(g, e) == g
  {
    if |g| > 0 {
      DeleteAbsent(g[1..], e);
      assert [g[0]] + g[1..] == g;
    }
  }
}

=== FILE: threads.dfy ===
/** Threads and their likes as the thread views see them: `ThreadCreateView`
    and `ThreadLikeView` (thread/views.py), the `liked_by_user` field of
    `ThreadSerializer` (thread/serializers.py) and the liked-users listing
    for threads (thread/mixins.py). */
module Threads {
  import opened Results
  import opened Accounts
  import opened Tables
  import opened Likes
  import opened Fields

  type ThreadId = nat

  datatype Thread = Thread(id: ThreadId, author: UserId, content: string, created: int)

  /** The part of the database the thread views touch: the accounts, those
      of them whose `is_active` is set, the threads and the like table. */
  datatype Db = Db(users: set<UserId>, active: set<UserId>, threads: map<ThreadId, Thread>, likes: seq<Like<ThreadId>>)

  /** Active accounts exist, keys match ids, authors exist, like rows point
      at existing accounts and threads, and (user, thread) is unique in the
      like table. */
  ghost predicate Valid(db: Db)
  {
    && db.active <= db.users
    && (forall t :: t in db.threads ==> db.threads[t].id == t && db.threads[t].author in db.users)
    && RowsRefer(db.users, db.threads.Keys, db.likes)
    && Unique(db.likes)
  }

  /** The request's account as authentication and the `IsAuthenticated`
      permission see it: an anonymous request, a credential whose account no
      longer exists and an account whose `is_active` is off are all refused
      before the view runs. */
  predicate Authenticated(db: Db, requester: Option<UserId>)
  {
    requester.Some? && requester.value in db.users && requester.value in db.active
  }

  datatype ThreadError = NotAuthenticated | NotFound | InvalidContent(reason: FieldError)

  /** What the client sends to create a thread.  `content` is `None` when
      the body has no content; `claimedAuthor` is whatever author the body
      names, a field `ThreadSerializer` does not expose. */
  datatype ThreadPayload = ThreadPayload(content: Option<string>, claimedAuthor: Option<UserId>)

  /** The serializer's `content` field, built from a `TextField` with
      `blank=True` and a default: stripped, blanks allowed, no length bound;
      an absent value leaves the column default, the empty string. */
  function CleanContent(content: Option<string>): (r: Result<string, FieldError>)
    ensures content.None? ==> r == Ok("")
    ensures content.Some? ==> (r.Ok? <==> '\0' !in Strip(content.value))
    ensures content.Some? && r.Ok? ==> r.value == Strip(content.value)
  {
    match content
    case None => Ok("")
    case Some(c) => CleanChar(c, None, true)
  }

  /** `ThreadCreateView.perform_create`: the new thread's author is the
      requester, never the author the payload names.  `id` and `now` are the
      key and creation time the database assigns. */
  function CreateThread(db: Db, requester: Option<UserId>, payload: ThreadPayload, id: ThreadId, now: int): (r: Result<(Db, Thread), ThreadError>)
    requires id !in db.threads
    ensures r == Err(NotAuthenticated) <==> !Authenticated(db, requester)
    ensures r.Err? <==> !Authenticated(db, requester) || CleanContent(payload.content).Err?
    ensures r.Ok? ==> var (db', t) := r.value;
      && t.author == requester.value
      && t.content == CleanContent(payload.content).value
      && t.id == id
      && db'.threads == db.threads[id := t]
      && db'.users == db.users && db'.active == db.active && db'.likes == db.likes
  {
    if !Authenticated(db, requester) then Err(NotAuthenticated)
    else match CleanContent(payload.content)
      case Err(e) => Err(InvalidContent(e))
      case Ok(content) =>
        var t := Thread(id, requester.value, content, now);
        Ok((db.(threads := db.threads[id := t]), t))
  }

  /** A created thread starts with no likes, and creation keeps the
      database valid. */
  lemma CreateThreadKeepsValid(db: Db, requester: Option<UserId>, payload: ThreadPayload, id: ThreadId, now: int)
    requires Valid(db) && id !in db.threads
    requires CreateThread(db, requester, payload, id, now).Ok?
    ensures var (db', t) := CreateThread(db, requester, payload, id, now).value;
      Valid(db') && Likers(db'.likes, id) == {}
  {
    var (db', t) := CreateThread(db, requester, payload, id, now).value;
    forall r | r in db'.likes
      ensures r.target != id
    {
      assert r.target in db.threads;
    }
  }

  /** `ThreadSerializer.get_liked_by_user`. */
  function LikedByUser(db: Db, user: UserId, t: ThreadId): (liked: bool)
    ensures liked <==> Like(user, t) in db.likes
  {
    user in Likers(db.likes, t)
  }

  /** The serialized thread in a response: id, content and `liked_by_user`
      for the requesting account. */
  datatype ThreadView = ThreadView(id: ThreadId, content: string, likedByUser: bool)

  /** What `ThreadLikeView.update` leaves behind: the new database, the
      `likes_count` it sets on the instance, and the serialized thread. */
  datatype LikeOutcome = LikeOutcome(db: Db, likesCount: nat, view: ThreadView)

  /** `ThreadLikeView.update`: look the thread up (404 when missing), toggle
      the requester's like, recount. */
  function LikeThread(db: Db, requester: Option<UserId>, t: ThreadId): (r: Result<LikeOutcome, ThreadError>)
    ensures !Authenticated(db, requester) ==> r == Err(NotAuthenticated)
    ensures Authenticated(db, requester) && t !in db.threads ==> r == Err(NotFound)
    ensures r.Ok? <==> Authenticated(db, requester) && t in db.threads
    ensures r.Ok? ==>
      var u := requester.value;
      && r.value.db.users == db.users && r.value.db.active == db.active && r.value.db.threads == db.threads
      && Likers(r.value.db.likes, t) == (if u in Likers(db.likes, t) then Likers(db.likes, t) - {u} else Likers(db.likes, t) + {u})
      && (forall p :: p != t ==> Likers(r.value.db.likes, p) == Likers(db.likes, p))
      && r.value.likesCount == RowCount(r.value.db.likes, t)
      && r.value.view == ThreadView(t, db.threads[t].content, u !in Likers(db.likes, t))
  {
    if !Authenticated(db, requester) then Err(NotAuthenticated)
    else if t !in db.threads then Err(NotFound)
    else
      var u := requester.value;
      var db' := db.(likes := Toggle(db.likes, u, t));
      Ok(LikeOutcome(db', RowCount(db'.likes, t), ThreadView(t, db.threads[t].content, LikedByUser(db', u, t))))
  }

  /** A like toggle keeps the database valid; the count it reports is the
      number of likers, one more or one fewer than before. */
  lemma LikeThreadKeepsValid(db: Db, requester: Option<UserId>, t: ThreadId)
    requires Valid(db)
    requires LikeThread(db, requester, t).Ok?
    ensures var o := LikeThread(db, requester, t).value;
      && Valid(o.db)
      && o.likesCount == |Likers(o.db.likes, t)|
      && (if LikedByUser(db, requester.value, t) then o.likesCount + 1 == RowCount(db.likes, t)
          else o.likesCount == RowCount(db.likes, t) + 1)
  {
    var o := LikeThread(db, requester, t).value;
    var u := requester.value;
    forall r | r in o.db.likes
      ensures r.user in db.users && r.target in db.threads
    {
      if r.target == t {
        assert r.user in Likers(o.db.likes, t);
        assert r.user == u || r.user in Likers(db.likes, t);
      } else {
        assert r.user in Likers(o.db.likes, r.target);
        assert Like(r.user, r.target) in db.likes;
      }
    }
    CountIsCardinality(o.db.likes, t);
    ToggleCountStep(db.likes, u, t);
  }

  /** Liking twice in a row gives the original likes back (up to row order)
      and the original count. */
  lemma LikeTwiceRestores(db: Db, u: UserId, t: ThreadId)
    requires Valid(db)
    requires LikeThread(db, Some(u), t).Ok?
    ensures var once := LikeThread(db, Some(u), t).value;
      var twice := LikeThread(once.db, Some(u), t);
      && twice.Ok?
      && (forall y :: Count(twice.value.db.likes, y) == Count(db.likes, y))
      && (forall p :: Likers(twice.value.db.likes, p) == Likers(db.likes, p))
      && twice.value.likesCount == RowCount(db.likes, t)
  {
    ToggleTwice(db.likes, u, t);
    ToggleTwiceLikers(db.likes, u, t);
  }

  /** The response's `liked_by_user` says whether the toggle added the like,
      and another account's toggle never changes whether `v` likes a thread. */
  lemma LikedByUserAfterToggle(db: Db, u: UserId, v: UserId, t: ThreadId, p: ThreadId)
    requires LikeThread(db, Some(u), t).Ok?
    ensures var o := LikeThread(db, Some(u), t).value;
      && LikedByUser(o.db, u, t) == !LikedByUser(db, u, t)
      && o.view.likedByUser == LikedByUser(o.db, u, t)
      && (v != u ==> LikedByUser(o.db, v, p) == LikedByUser(db, v, p))
  {
  }

  /** The liked-users listing for thread `t`. */
  function ThreadLikedUsers(db: Db, t: ThreadId): (s: set<UserId>)
    ensures t !in db.threads ==> s == {}
    ensures forall u :: u in s <==> t in db.threads && u in db.users && LikedByUser(db, u, t)
  {
    LikedUsers(db.users, db.threads.Keys, db.likes, t)
  }

  /** On a valid database the listing holds exactly the accounts whose
      `liked_by_user` is true. */
  lemma LikedUsersMatchLikedByUser(db: Db, t: ThreadId, u: UserId)
    requires Valid(db) && t in db.threads
    ensures u in ThreadLikedUsers(db, t) <==> LikedByUser(db, u, t)
  {
    LikedUsersAreLikers(db.users, db.threads.Keys, db.likes, t);
  }
}
